=== FILE: README.md ===
# Trip point list: new-point lifecycle and point card

A Dafny model of two components of a travel-planner's list of trip points:

- **`NewPointPresenter`** (`src/presenter/new-point-presenter.js`) runs the inline
  "new point" edit form. It is CLOSED while it holds no form and OPEN while it does.
  `init()` mounts a form and registers a document keydown listener. `destroy()`
  notifies the owner, drops the form and unregisters the listener. Submit reports
  `(ADD_POINT, MINOR, point)` to the owner and then destroys. Cancel destroys.
  Escape or Esc destroys. `setSaving()` and `setAborting()` set the form's flags.
- **`PointView`** (`src/view/point-view.js`) renders one point as a read-only card.
  It computes the offer group, the destination name, the selected offers, the
  duration format and the favorite class. It forwards rollup and favorite clicks
  to its owner.

Files:

- `trip_model.dfy` (module `TripModel`): points, offers, offer groups, destinations and the points model's reference data.
- `array_ops.dfy` (module `ArrayOps`): `find`, `filter` and `map` on sequences, with their contracts and two lemmas about `filter`.
- `point_view.dfy` (module `PointView`): the template's computed fields as pure functions, lemmas about them, and a `PointView` class.
- `new_point_presenter.dfy` (module `NewPointPresenter`): the transitions as functions on a `PresenterState` value, lemmas over arbitrary event sequences, and a `NewPointPresenter` class.

The presenter's class has the fields `pointEditComponent` (the mounted form, or
None), `keydownListeners` (listeners registered on the document) and `calls`
(every call to the owner, in order). Each `onDataChange` call and each
`onDestroy` call is one entry of `calls`. The data-change log and the
`onDestroy` count are derived from it, so the order of the two calls a submit
makes can be stated. The class invariant `Valid()` says that exactly one listener
is registered while a form is mounted, and none otherwise. Every method is
proved to perform the matching transition function. The lemmas about those
functions carry the lifecycle guarantees over any sequence of events.

Both sources are plain JavaScript. The escaping function `he.encode` is a
parameter `encode: string -> string`, about which nothing is assumed. Timestamps
are integer milliseconds. The duration is `dateTo - dateFrom`.

The duration formats are the strings `DD[D] HH[H] mm[M]`, `HH[H] mm[M]` and
`mm[M]` of src/view/point-view.js:39-46.

## Model

| member | source | states |
|---|---|---|
| `ArrayOps.Find` | src/view/point-view.js:19-20 | The result is absent exactly when no element matches. Otherwise it is the element at the first matching position. |
| `ArrayOps.Filter` | src/view/point-view.js:27-28 | The result is no longer than the input. Each kept element is in the input and satisfies the test. Each element that satisfies the test is kept. |
| `ArrayOps.Map` | src/view/point-view.js:29-33 | One output per input, each the transform of the input at the same position. |
| `ArrayOps.FilterConcat` | src/view/point-view.js:27-28 | Filtering a concatenation is filtering each part and concatenating, so kept elements keep their relative order. |
| `ArrayOps.FilterAgreeing` | src/view/point-view.js:28 | Two tests that agree on every element select the same sequence. |
| `PointView.PointTypeOffer` | src/view/point-view.js:19 | The offer group is absent exactly when no group has the point's type. Otherwise it is the first group of that type. |
| `PointView.PointDestination` | src/view/point-view.js:20 | The destination is absent exactly when no destination has the point's id. Otherwise it is the first destination with that id. |
| `PointView.SelectedOffers` | src/view/point-view.js:22-28 | With no group, the result is empty. With a group, the result is exactly the group's offers whose id is among the selected ids, and never more offers than the group holds. |
| `PointView.DurationFormat` | src/view/point-view.js:37-49 | `mm[M]` exactly below 3 600 000 ms. `HH[H] mm[M]` exactly from 3 600 000 ms up to but excluding 86 400 000 ms. `DD[D] HH[H] mm[M]` exactly from 86 400 000 ms. Each threshold itself selects the higher tier. |
| `PointView.FavoriteClassName` | src/view/point-view.js:52-54 | The class list always holds `event__favorite-btn` as a whole class name. It holds `event__favorite-btn--active` as a whole class name, and contains that text at all, if and only if the point is a favorite. Otherwise it is exactly `event__favorite-btn`. |
| `PointView.NatToDecimal` | src/view/point-view.js:72 | The decimal text of a non-negative number: at least one digit, digits only, no leading zero, and it reads back as the number. |
| `PointView.NumberToString` | src/view/point-view.js:72 | The text of a price, as at lines 32 and 72: it starts with a minus sign exactly when the price is negative, the rest is at least one digit with no leading zero, and it reads back as the price. So it is the canonical decimal text. |
| `PointView.DestinationName` | src/view/point-view.js:62 | Empty when no destination has the point's id. Otherwise the escaped name of the first destination with that id. |
| `PointView.CreatePointTemplate` | src/view/point-view.js:13-89 | The card shows the escaped type and the escaped price text. Its destination name is that of `DestinationName`: the escaped name of the first destination with the point's id, or empty when there is none, whatever offer groups are given. Its duration format is `mm[M]` exactly below an hour of `dateTo - dateFrom`. It is `HH[H] mm[M]` exactly from an hour up to but excluding a day. It is `DD[D] HH[H] mm[M]` exactly from a day on. The favorite class is active exactly for favorites. It shows no offers when no group has the point's type, and never more offers than the point type's group holds. |
| `PointView.RenderedOffers` | src/view/point-view.js:27-34 | The card shows one item per selected offer, in order, each with the escaped title and the escaped price text. There are never more items than the group has offers. |
| `PointView.SelectedOffersFollowGroupOrder` | src/view/point-view.js:27-28 | Offers appear in the group's order: the selection from a group split in two is the selection from the front followed by the selection from the back. |
| `PointView.SelectedOffersIgnorePointOrder` | src/view/point-view.js:28 | The order of the point's own offer ids has no effect. Id lists with the same members give the same offers in the same order. |
| `PointView.DurationTierMonotone` | src/view/point-view.js:41-46 | A longer duration never selects a finer tier. |
| `PointView.PointView.constructor` | src/view/point-view.js:99-107 | The card is bound to the given point, offer groups and destinations (constant fields), and no callback has been called. |
| `PointView.PointView.Template` | src/view/point-view.js:116-118 | The favorite button's class list always holds `event__favorite-btn` as a whole class name, so the `.event__favorite-btn` selector at line 112 finds it. It holds the active class if and only if the bound point is a favorite. |
| `PointView.PointView.RollupButtonClickHandler` | src/view/point-view.js:120-123 | A rollup click calls the rollup callback exactly once. The bound snapshot is constant and cannot change. |
| `PointView.PointView.FavoriteClickHandler` | src/view/point-view.js:126-129 | A favorite click calls the favorite callback exactly once. The bound snapshot is constant and cannot change. |
| `NewPointPresenter.InitStep` | src/presenter/new-point-presenter.js:22-37 | Afterwards a form is mounted and no callback has been made. If a form was already mounted, nothing changes. Otherwise a fresh form over the model's reference data is mounted and one listener is added. The invariant is kept, with exactly one listener. |
| `NewPointPresenter.DestroyStep` | src/presenter/new-point-presenter.js:39-50 | Afterwards no form is mounted. When closed, nothing changes. When open, `onDestroy` is called exactly once and the data-change log is untouched. The invariant is kept, with no listener. |
| `NewPointPresenter.SetSavingStep` | src/presenter/new-point-presenter.js:52-57 | Requires a mounted form. Sets `isDisabled` and `isSaving` and leaves `isDeleting`, the form's data, the listeners and the calls unchanged. |
| `NewPointPresenter.SetAbortingStep` | src/presenter/new-point-presenter.js:59-69 | Requires a mounted form. Clears `isDisabled`, `isSaving` and `isDeleting` and leaves the form's data, the listeners and the calls unchanged. |
| `NewPointPresenter.SubmitStep` | src/presenter/new-point-presenter.js:71-78 | Appends exactly one `(AddPoint, Minor, point)` entry to the data-change log and closes the presenter. From the open state, the calls made are that entry followed by one `onDestroy`. The invariant is kept. |
| `NewPointPresenter.CancelStep` | src/presenter/new-point-presenter.js:80-82 | Closes the presenter and leaves the data-change log untouched. `onDestroy` is called once if the presenter was open. |
| `NewPointPresenter.EscKeyDownStep` | src/presenter/new-point-presenter.js:84-89 | `Escape` or `Esc` closes the presenter without touching the data-change log. Any other key changes nothing. The invariant is kept. |
| `NewPointPresenter.KeyDownStep` | src/presenter/new-point-presenter.js:36-49 | A document keydown reaches the handler only while a listener is registered. With none registered, nothing changes. |
| `NewPointPresenter.InitTwiceIsInitOnce` | src/presenter/new-point-presenter.js:22-25 | Calling `init()` twice in a row is the same as calling it once. |
| `NewPointPresenter.DestroyTwiceIsDestroyOnce` | src/presenter/new-point-presenter.js:39-44 | Calling `destroy()` twice in a row is the same as calling it once, and calls `onDestroy` at most once. |
| `NewPointPresenter.KeyDownAfterDestroyIgnored` | src/presenter/new-point-presenter.js:36-49 | After `destroy()`, no keydown on the document has any effect, Escape included. |
| `NewPointPresenter.RunKeepsInv` | src/presenter/new-point-presenter.js:22-50 | Over any sequence of init, destroy, submit, cancel and keydown events, the listener count stays at most 1. It is 1 exactly while a form is mounted. |
| `NewPointPresenter.RunDestroyBound` | src/presenter/new-point-presenter.js:22-50 | Over any events, `onDestroy` calls plus registered listeners never decrease, and they grow by at most one per `init()`. Each listener is released by exactly one `onDestroy`. |
| `NewPointPresenter.DestroyAtMostOncePerInit` | src/presenter/new-point-presenter.js:22-50 | Starting from a new presenter, `onDestroy` is called at most once per `init()`. |
| `NewPointPresenter.RunDataChanges` | src/presenter/new-point-presenter.js:71-89 | Over any events, the data-change log gains exactly one `(AddPoint, Minor, point)` entry per submit, in submit order. Nothing else adds to it. |
| `NewPointPresenter.NewPointPresenter.constructor` | src/presenter/new-point-presenter.js:14-20 | A new presenter is closed, with no listener and no calls, and it keeps the given points model. |
| `NewPointPresenter.NewPointPresenter.Init` | src/presenter/new-point-presenter.js:22-37 | Keeps `Valid()` and performs `InitStep` on its fields. |
| `NewPointPresenter.NewPointPresenter.Destroy` | src/presenter/new-point-presenter.js:39-50 | Keeps `Valid()` and performs `DestroyStep` on its fields. |
| `NewPointPresenter.NewPointPresenter.SetSaving` | src/presenter/new-point-presenter.js:52-57 | Requires a mounted form. Keeps `Valid()` and performs `SetSavingStep`. |
| `NewPointPresenter.NewPointPresenter.SetAborting` | src/presenter/new-point-presenter.js:59-69 | Requires a mounted form. Keeps `Valid()` and performs `SetAbortingStep`. |
| `NewPointPresenter.NewPointPresenter.HandleFormSubmit` | src/presenter/new-point-presenter.js:71-78 | Keeps `Valid()` and performs `SubmitStep`: it reports the point, then destroys. |
| `NewPointPresenter.NewPointPresenter.HandleFormCancelButtonClick` | src/presenter/new-point-presenter.js:80-82 | Keeps `Valid()` and performs `CancelStep`. |
| `NewPointPresenter.NewPointPresenter.EscKeyDownHandler` | src/presenter/new-point-presenter.js:84-89 | Keeps `Valid()` and performs `EscKeyDownStep`. |
| `NewPointPresenter.NewPointPresenter.DispatchKeyDown` | src/presenter/new-point-presenter.js:36-49 | Keeps `Valid()` and performs `KeyDownStep`: the document calls the handler only while it is registered. |

## Left out

- DOM plumbing is not modelled: rendering and removing the form, inserting it into the container, `querySelector`, and `preventDefault`. Listener registration is a counter on the document.
- Browser deduplication of listeners is not modelled. The counter counts every registration, so the invariant shows the presenter never registers twice on its own.
- Date and time formatting with `DATE_FORMAT` and `TIME_FORMAT` is not modelled, because it is a foreign library. Only the duration format string is chosen. The digits `dayjs.duration(...).format` prints are not modelled.
- `he.encode` is an uninterpreted parameter. Its escaping rules are not stated.
- The literal markup of the template is not modelled, except the favorite button's class list.
- `EditPointView` (`src/view/edit-point-view.js`) is not part of this model. A new form is assumed to start with its three flags false. Its `shake` animation is collapsed: `SetAbortingStep` and `SetAborting` give the state after the shake callback has run.
- Owner callbacks that call back into the presenter are not modelled. Each owner call is one atomic log entry. In the source, `onDestroy` runs while the form and the listener are still set (new-point-presenter.js:44, cleared at 47 and 49), and `onDataChange` runs before `destroy()` (line 72). An `init()` made from inside `onDestroy` would be dropped, and a `destroy()` from inside it would call `onDestroy` again. `DestroyTwiceIsDestroyOnce`, `DestroyAtMostOncePerInit` and `RunDestroyBound` assume the owner does neither.
- Submit followed by a later abort is not modelled. `setSaving()` and `setAborting()` on a closed presenter dereference null in the source. The model instead requires a mounted form.
- The points model is taken as a constant snapshot. In the source, each `init()` re-reads `pointsModel.offers` and `pointsModel.destinations`.
- NumberToString: prices are integers of magnitude below 10^21, for which `String(price)` is the decimal text. The exponent form JavaScript prints for larger numbers (`String(1e21)` is `1e+21`), integers beyond the exact range of JavaScript numbers, and fractional prices are not modelled.
- The enumerations `UserAction` and `UpdateType` are defined outside these files. The extra members `UpdatePoint`, `DeletePoint`, `Patch` and `Major` stand for the rest of each enumeration.

=== FILE: array_ops.dfy ===
/** The array operations the view is built from: `find`, `filter`, `map` and
    `includes` of JavaScript arrays, on sequences. */
module ArrayOps {
  import opened TripModel

  /** `i` is the position of the first element of `s` satisfying `p`. */
  predicate IsFirstMatch<T>(s: seq<T>, p: T -> bool, i: int) {
    0 <= i < |s| && p(s[i]) && forall j :: 0 <= j < i ==> !p(s[j])
  }

  /** The first element satisfying `p`, or None when there is none. */
  function Find<T>(s: seq<T>, p: T -> bool): (r: Option<T>)
    ensures r.None? <==> forall i :: 0 <= i < |s| ==> !p(s[i])
    ensures r.Some? ==> exists i :: IsFirstMatch(s, p, i) && s[i] == r.value
  {
    if |s| == 0 then None
    else if p(s[0]) then
      assert IsFirstMatch(s, p, 0);
      Some(s[0])
    else
      var r := Find(s[1..], p);
      assert r.Some? ==> exists i :: IsFirstMatch(s, p, i) && s[i] == r.value by {
        if r.Some? {
          var i :| IsFirstMatch(s[1..], p, i) && s[1..][i] == r.value;
          assert IsFirstMatch(s, p, i + 1) by {
            forall j | 0 <= j < i + 1 ensures !p(s[j]) {
              if j > 0 { assert s[j] == s[1..][j - 1]; }
            }
          }
        }
      }
      r
  }

  /** The elements satisfying `p`, in their order in `s`. */
  function Filter<T>(s: seq<T>, p: T -> bool): (r: seq<T>)
    ensures |r| <= |s|
    ensures forall i :: 0 <= i < |r| ==> r[i] in s && p(r[i])
    ensures forall i :: 0 <= i < |s| && p(s[i]) ==> s[i] in r
  {
    if |s| == 0 then []
    else (if p(s[0]) then [s[0]] else []) + Filter(s[1..], p)
  }

  /** Each element of `s` transformed by `f`, position by position. */
  function Map<T, U>(s: seq<T>, f: T -> U): (r: seq<U>)
    ensures |r| == |s|
    ensures forall i :: 0 <= i < |s| ==> r[i] == f(s[i])
  {
    seq(|s|, i requires 0 <= i < |s| => f(s[i]))
  }

  /** Filtering a concatenation filters each part: kept elements keep their order. */
  lemma {:induction false} FilterConcat<T>(a: seq<T>, b: seq<T>, p: T -> bool)
    ensures Filter(a + b, p) == Filter(a, p) + Filter(b, p)
  {
    if |a| == 0 {
      assert a + b == b;
    } else {
      assert (a + b)[1..] == a[1..] + b;
      FilterConcat(a[1..], b, p);
    }
  }

  /** Filtering with two predicates that agree on every element gives the same sequence. */
  lemma {:induction false} FilterAgreeing<T>(s: seq<T>, p: T -> bool, q: T -> bool)
    requires forall i :: 0 <= i < |s| ==> p(s[i]) == q(s[i])
    ensures Filter(s, p) == Filter(s, q)
  {
    if |s| > 0 {
      FilterAgreeing(s[1..], p, q);
    }
  }
}

=== FILE: new_point_presenter.dfy ===
/** The presenter that runs the "new point" edit form: CLOSED while it holds no
    form, OPEN while it does. The transitions are first stated as functions on
    a state value; the class below keeps that state in its fields and each of
    its methods is proved to perform the matching transition. */
module NewPointPresenter {
  import opened TripModel
  import opened ArrayOps

  /** The application's user actions and update types. Only AddPoint and Minor
      are ever emitted by this presenter. */
  datatype UserAction = UpdatePoint | AddPoint | DeletePoint
  datatype UpdateType = Patch | Minor | Major

  /** A call the presenter makes to its owner: `onDataChange(action, updateType, point)` or `onDestroy()`. */
  datatype Callback = DataChange(action: UserAction, updateType: UpdateType, payload: Point) | Destroyed

  /** The mounted edit form: the reference data it was built with and the
      interaction flags the presenter sets on it. */
  datatype EditForm = EditForm(
    offersByType: seq<OfferGroup>,
    destinations: seq<Destination>,
    isDisabled: bool,
    isSaving: bool,
    isDeleting: bool)

  /** Everything the presenter changes: the mounted form (None when CLOSED),
      how many keydown listeners it has registered on the document, and every
      call to the owner so far, in order. */
  datatype PresenterState = PresenterState(editForm: Option<EditForm>, keydownListeners: nat, calls: seq<Callback>)

  /** The presenter's invariant: exactly one keydown listener while a form is
      mounted, none otherwise. */
  predicate Inv(s: PresenterState) {
    s.keydownListeners == if s.editForm.Some? then 1 else 0
  }

  const Closed: PresenterState := PresenterState(None, 0, [])

  function IsDataChange(c: Callback): bool { c.DataChange? }
  function IsDestroyed(c: Callback): bool { c.Destroyed? }

  /** The `onDataChange` calls among the owner calls, in order. */
  function DataChangeLog(calls: seq<Callback>): seq<Callback> {
    Filter(calls, IsDataChange)
  }

  /** How many times `onDestroy` has been called. */
  function DestroyCount(calls: seq<Callback>): nat {
    |Filter(calls, IsDestroyed)|
  }

  /** A fresh edit form over the points model's reference data. */
  function NewEditForm(model: PointsModel): EditForm {
    EditForm(model.offers, model.destinations, false, false, false)
  }

  /** `init()`: mount a form and register the keydown listener, unless a form is already mounted. */
  function InitStep(s: PresenterState, model: PointsModel): (r: PresenterState)
    ensures r.editForm.Some? && r.calls == s.calls
    ensures s.editForm.Some? ==> r == s
    ensures s.editForm.None? ==> r.editForm == Some(NewEditForm(model)) && r.keydownListeners == s.keydownListeners + 1
    ensures Inv(s) ==> Inv(r) && r.keydownListeners == 1
  {
    if s.editForm.Some? then s
    else PresenterState(Some(NewEditForm(model)), s.keydownListeners + 1, s.calls)
  }

  /** `destroy()`: when a form is mounted, call `onDestroy`, drop the form and
      unregister the keydown listener (removing an absent listener does nothing). */
  function DestroyStep(s: PresenterState): (r: PresenterState)
    ensures r.editForm.None?
    ensures s.editForm.None? ==> r == s
    ensures Inv(s) ==> Inv(r) && r.keydownListeners == 0
    ensures DestroyCount(r.calls) == DestroyCount(s.calls) + (if s.editForm.Some? then 1 else 0)
    ensures DataChangeLog(r.calls) == DataChangeLog(s.calls)
  {
    if s.editForm.None? then s
    else
      FilterConcat(s.calls, [Destroyed], IsDestroyed);
      FilterConcat(s.calls, [Destroyed], IsDataChange);
      PresenterState(None, if s.keydownListeners > 0 then s.keydownListeners - 1 else 0, s.calls + [Destroyed])
  }

  /** `setSaving()`: disable the form and show it as saving. */
  function SetSavingStep(s: PresenterState): (r: PresenterState)
    requires s.editForm.Some?
    ensures r.editForm.Some? && r.editForm.value.isDisabled && r.editForm.value.isSaving
    ensures r.editForm.value.isDeleting == s.editForm.value.isDeleting
    ensures r.editForm.value.offersByType == s.editForm.value.offersByType
    ensures r.editForm.value.destinations == s.editForm.value.destinations
    ensures r.keydownListeners == s.keydownListeners && r.calls == s.calls
  {
    s.(editForm := Some(s.editForm.value.(isDisabled := true, isSaving := true)))
  }

  /** `setAborting()` once its shake callback has run: the form is enabled,
      neither saving nor deleting. */
  function SetAbortingStep(s: PresenterState): (r: PresenterState)
    requires s.editForm.Some?
    ensures r.editForm.Some?
    ensures !r.editForm.value.isDisabled && !r.editForm.value.isSaving && !r.editForm.value.isDeleting
    ensures r.editForm.value.offersByType == s.editForm.value.offersByType
    ensures r.editForm.value.destinations == s.editForm.value.destinations
    ensures r.keydownListeners == s.keydownListeners && r.calls == s.calls
  {
    s.(editForm := Some(s.editForm.value.(isDisabled := false, isSaving := false, isDeleting := false)))
  }

  /** The form's submit handler: report the new point to the owner, then `destroy()`. */
  function SubmitStep(s: PresenterState, point: Point): (r: PresenterState)
    ensures r.editForm.None?
    ensures Inv(s) ==> Inv(r)
    ensures DataChangeLog(r.calls) == DataChangeLog(s.calls) + [DataChange(AddPoint, Minor, point)]
    ensures DestroyCount(r.calls) == DestroyCount(s.calls) + (if s.editForm.Some? then 1 else 0)
    ensures s.editForm.Some? ==> r.calls == s.calls + [DataChange(AddPoint, Minor, point), Destroyed]
  {
    var reported := s.(calls := s.calls + [DataChange(AddPoint, Minor, point)]);
    FilterConcat(s.calls, [DataChange(AddPoint, Minor, point)], IsDestroyed);
    FilterConcat(s.calls, [DataChange(AddPoint, Minor, point)], IsDataChange);
    DestroyStep(reported)
  }

  /** The form's cancel handler: `destroy()` without reporting anything. */
  function CancelStep(s: PresenterState): (r: PresenterState)
    ensures r.editForm.None?
    ensures Inv(s) ==> Inv(r)
    ensures DataChangeLog(r.calls) == DataChangeLog(s.calls)
    ensures DestroyCount(r.calls) == DestroyCount(s.calls) + (if s.editForm.Some? then 1 else 0)
  {
    DestroyStep(s)
  }

  predicate IsEscapeKey(key: string) {
    key == "Escape" || key == "Esc"
  }

  /** The keydown handler: Escape or Esc closes the form; any other key does nothing. */
  function EscKeyDownStep(s: PresenterState, key: string): (r: PresenterState)
    ensures IsEscapeKey(key) ==> r.editForm.None? && DataChangeLog(r.calls) == DataChangeLog(s.calls)
    ensures IsEscapeKey(key) ==> DestroyCount(r.calls) == DestroyCount(s.calls) + (if s.editForm.Some? then 1 else 0)
    ensures !IsEscapeKey(key) ==> r == s
    ensures Inv(s) ==> Inv(r)
  {
    if IsEscapeKey(key) then DestroyStep(s) else s
  }

  /** A keydown on the document reaches the handler only while it is registered. */
  function KeyDownStep(s: PresenterState, key: string): (r: PresenterState)
    ensures s.keydownListeners == 0 ==> r == s
    ensures s.keydownListeners > 0 ==> r == EscKeyDownStep(s, key)
  {
    if s.keydownListeners > 0 then EscKeyDownStep(s, key) else s
  }

  /** What can happen to the presenter from outside. */
  datatype Event = Init | Destroy | Submit(point: Point) | Cancel | KeyDown(key: string)

  function Step(s: PresenterState, model: PointsModel, e: Event): PresenterState {
    match e
    case Init => InitStep(s, model)
    case Destroy => DestroyStep(s)
    case Submit(point) => SubmitStep(s, point)
    case Cancel => CancelStep(s)
    case KeyDown(key) => KeyDownStep(s, key)
  }

  /** The state after the events, in order. */
  function Run(s: PresenterState, model: PointsModel, events: seq<Event>): PresenterState
    decreases |events|
  {
    if |events| == 0 then s else Run(Step(s, model, events[0]), model, events[1..])
  }

  function InitCount(events: seq<Event>): nat {
    if |events| == 0 then 0 else (if events[0].Init? then 1 else 0) + InitCount(events[1..])
  }

  /** The `onDataChange` calls the submits among the events make, in order. */
  function SubmittedChanges(events: seq<Event>): seq<Callback> {
    if |events| == 0 then []
    else
      (if events[0].Submit? then [DataChange(AddPoint, Minor, events[0].point)] else []) +
      SubmittedChanges(events[1..])
  }

  // Properties of the lifecycle

  /** `init()` twice mounts one form: the second call changes nothing. */
  lemma InitTwiceIsInitOnce(s: PresenterState, model: PointsModel)
    ensures InitStep(InitStep(s, model), model) == InitStep(s, model)
  {
  }

  /** `destroy()` twice calls `onDestroy` at most once. */
  lemma DestroyTwiceIsDestroyOnce(s: PresenterState)
    ensures DestroyStep(DestroyStep(s)) == DestroyStep(s)
    ensures DestroyCount(DestroyStep(DestroyStep(s)).calls) <= DestroyCount(s.calls) + 1
  {
  }

  /** After `destroy()`, a keydown on the document has no effect, Escape included. */
  lemma KeyDownAfterDestroyIgnored(s: PresenterState, key: string)
    requires Inv(s)
    ensures KeyDownStep(DestroyStep(s), key) == DestroyStep(s)
  {
  }

  /** Over any events, the listener count stays 1 exactly while a form is mounted. */
  lemma {:induction false} RunKeepsInv(s: PresenterState, model: PointsModel, events: seq<Event>)
    requires Inv(s)
    ensures Inv(Run(s, model, events))
    ensures Run(s, model, events).keydownListeners <= 1
    decreases |events|
  {
    if |events| > 0 {
      var next := Step(s, model, events[0]);
      assert Inv(next);
      RunKeepsInv(next, model, events[1..]);
    }
  }

  /** Over any events, `onDestroy` calls plus registered listeners never
      decrease and grow by at most one per `init()`: every listener is released
      by exactly one `onDestroy` call and no `destroy()` notifies twice. */
  lemma {:induction false} RunDestroyBound(s: PresenterState, model: PointsModel, events: seq<Event>)
    requires Inv(s)
    ensures var r := Run(s, model, events);
      DestroyCount(s.calls) + s.keydownListeners <= DestroyCount(r.calls) + r.keydownListeners <=
      DestroyCount(s.calls) + s.keydownListeners + InitCount(events)
    decreases |events|
  {
    if |events| > 0 {
      var next := Step(s, model, events[0]);
      assert Inv(next);
      assert DestroyCount(s.calls) + s.keydownListeners <= DestroyCount(next.calls) + next.keydownListeners <=
        DestroyCount(s.calls) + s.keydownListeners + (if events[0].Init? then 1 else 0);
      RunDestroyBound(next, model, events[1..]);
    }
  }

  /** From the closed state, `onDestroy` is called at most once per `init()`. */
  lemma DestroyAtMostOncePerInit(model: PointsModel, events: seq<Event>)
    ensures DestroyCount(Run(Closed, model, events).calls) <= InitCount(events)
  {
    RunDestroyBound(Closed, model, events);
  }

  /** Over any events, the data-change log grows by exactly one
      `(AddPoint, Minor, point)` entry per submit, in submit order; cancel,
      escape, init and destroy add nothing. */
  lemma {:induction false} RunDataChanges(s: PresenterState, model: PointsModel, events: seq<Event>)
    ensures DataChangeLog(Run(s, model, events).calls) == DataChangeLog(s.calls) + SubmittedChanges(events)
    decreases |events|
  {
    if |events| > 0 {
      var next := Step(s, model, events[0]);
      assert DataChangeLog(next.calls) == DataChangeLog(s.calls) +
        (if events[0].Submit? then [DataChange(AddPoint, Minor, events[0].point)] else []);
      RunDataChanges(next, model, events[1..]);
    }
  }

  /** The presenter object. */
  class NewPointPresenter {
    const pointsModel: PointsModel
    var pointEditComponent: Option<EditForm>
    var keydownListeners: nat
    var calls: seq<Callback>

    function State(): PresenterState
      reads this
    {
      PresenterState(pointEditComponent, keydownListeners, calls)
    }

    predicate Valid()
      reads this
    {
      Inv(State())
    }

    constructor (pointsModel: PointsModel)
      ensures Valid() && this.pointsModel == pointsModel
      ensures State() == Closed
    {
      this.pointsModel := pointsModel;
      pointEditComponent := None;
      keydownListeners := 0;
      calls := [];
    }

    method Init()
      requires Valid()
      modifies this
      ensures Valid()
      ensures State() == InitStep(old(State()), pointsModel)
    {
      if pointEditComponent.Some? {
        return;
      }
      pointEditComponent := Some(NewEditForm(pointsModel));
      keydownListeners := keydownListeners + 1;
    }

    method Destroy()
      requires Valid()
      modifies this
      ensures Valid()
      ensures State() == DestroyStep(old(State()))
    {
      if pointEditComponent.None? {
        return;
      }
      calls := calls + [Destroyed];
      pointEditComponent := None;
      keydownListeners := keydownListeners - 1;
    }

    method SetSaving()
      requires Valid() && pointEditComponent.Some?
      modifies this
      ensures Valid()
      ensures State() == SetSavingStep(old(State()))
    {
      pointEditComponent := Some(pointEditComponent.value.(isDisabled := true, isSaving := true));
    }

    method SetAborting()
      requires Valid() && pointEditComponent.Some?
      modifies this
      ensures Valid()
      ensures State() == SetAbortingStep(old(State()))
    {
      pointEditComponent := Some(pointEditComponent.value.(isDisabled := false, isSaving := false, isDeleting := false));
    }

    method HandleFormSubmit(point: Point)
      requires Valid()
      modifies this
      ensures Valid()
      ensures State() == SubmitStep(old(State()), point)
    {
      calls := calls + [DataChange(AddPoint, Minor, point)];
      Destroy();
    }

    method HandleFormCancelButtonClick()
      requires Valid()
      modifies this
      ensures Valid()
      ensures State() == CancelStep(old(State()))
    {
      Destroy();
    }

    method EscKeyDownHandler(key: string)
      requires Valid()
      modifies this
      ensures Valid()
      ensures State() == EscKeyDownStep(old(State()), key)
    {
      if key == "Escape" || key == "Esc" {
        Destroy();
      }
    }

    /** The document delivering a keydown: it reaches the handler only while registered. */
    method DispatchKeyDown(key: string)
      requires Valid()
      modifies this
      ensures Valid()
      ensures State() == KeyDownStep(old(State()), key)
    {
      if keydownListeners > 0 {
        EscKeyDownHandler(key);
      }
    }
  }
}

=== FILE: point_view.dfy ===
/** The read-only card of one point: the fields its template computes from the
    point and the reference data, and the two clicks it forwards to its owner.
    HTML escaping is a parameter `encode`, applied where the template escapes;
    markup text and date formatting are not part of this model. */
module PointView {
  import opened TripModel
  import opened ArrayOps

  const MILLISECONDS_AMOUNT_IN_HOUR: int := 3600000
  const MILLISECONDS_AMOUNT_IN_DAY: int := 86400000

  /** Duration format strings, from the coarsest tier to the finest. */
  const DAYS_FORMAT: string := "DD[D] HH[H] mm[M]"
  const HOURS_FORMAT: string := "HH[H] mm[M]"
  const MINUTES_FORMAT: string := "mm[M]"

  const FAVORITE_CLASS: string := "event__favorite-btn"
  const FAVORITE_ACTIVE_CLASS: string := "event__favorite-btn--active"

  /** One rendered offer: its escaped title and escaped price text. */
  datatype OfferItem = OfferItem(title: string, price: string)

  /** The computed parts of a point's markup. */
  datatype PointCard = PointCard(
    typeLabel: string,
    destinationName: string,
    priceLabel: string,
    durationFormat: string,
    offers: seq<OfferItem>,
    favoriteClassName: string)

  /** `t` occurs in `s` starting at position `i`. */
  predicate OccursAt(s: string, t: string, i: int) {
    0 <= i && i + |t| <= |s| && s[i..i + |t|] == t
  }

  predicate Contains(s: string, t: string) {
    exists i :: 0 <= i <= |s| && OccursAt(s, t, i)
  }

  /** `c` occurs in the class list `s` as a whole class name, delimited by
      spaces or the ends of the list, so a `.c` selector matches it. */
  predicate HasClass(s: string, c: string) {
    exists i :: 0 <= i <= |s| && OccursAt(s, c, i) &&
      (i == 0 || s[i - 1] == ' ') && (i + |c| == |s| || s[i + |c|] == ' ')
  }

  /** The offer group of a point type: the first group of that type. */
  function PointTypeOffer(offersByType: seq<OfferGroup>, pointType: string): (r: Option<OfferGroup>)
    ensures r.None? <==> forall i :: 0 <= i < |offersByType| ==> offersByType[i].pointType != pointType
    ensures r.Some? ==>
      (exists i :: 0 <= i < |offersByType| && offersByType[i] == r.value &&
        r.value.pointType == pointType &&
        (forall j :: 0 <= j < i ==> offersByType[j].pointType != pointType))
  {
    var p := (g: OfferGroup) => g.pointType == pointType;
    Find(offersByType, p)
  }

  /** The destination a point refers to: the first one with that id. */
  function PointDestination(destinations: seq<Destination>, id: string): (r: Option<Destination>)
    ensures r.None? <==> forall i :: 0 <= i < |destinations| ==> destinations[i].id != id
    ensures r.Some? ==>
      (exists i :: 0 <= i < |destinations| && destinations[i] == r.value &&
        r.value.id == id &&
        (forall j :: 0 <= j < i ==> destinations[j].id != id))
  {
    var p := (d: Destination) => id == d.id;
    Find(destinations, p)
  }

  /** The test the offer filter applies: the offer's id is among the selected ids. */
  function IsSelectedIn(selected: seq<string>): Offer -> bool {
    (o: Offer) => o.id in selected
  }

  /** The offers of the group whose ids are selected, in the group's order;
      none when there is no group. */
  function SelectedOffers(group: Option<OfferGroup>, selected: seq<string>): (r: seq<Offer>)
    ensures group.None? ==> r == []
    ensures group.Some? ==> |r| <= |group.value.offers|
    ensures group.Some? ==> forall i :: 0 <= i < |r| ==> r[i] in group.value.offers && r[i].id in selected
    ensures group.Some? ==>
      forall i :: 0 <= i < |group.value.offers| && group.value.offers[i].id in selected ==>
        group.value.offers[i] in r
  {
    match group
    case None => []
    case Some(g) => Filter(g.offers, IsSelectedIn(selected))
  }

  function DigitChar(d: nat): char
    requires d < 10
  {
    "0123456789"[d]
  }

  predicate IsDigit(c: char) {
    '0' <= c <= '9'
  }

  /** The value of a string of decimal digits, most significant first. */
  function DecimalValue(s: string): int
    decreases |s|
  {
    if |s| == 0 then 0 else 10 * DecimalValue(s[..|s| - 1]) + (s[|s| - 1] as int - '0' as int)
  }

  /** The shortest decimal text of `n`: digits only, no leading zero, reading back as `n`. */
  function NatToDecimal(n: nat): (r: string)
    ensures |r| >= 1 && forall i :: 0 <= i < |r| ==> IsDigit(r[i])
    ensures |r| > 1 ==> r[0] != '0'
    ensures DecimalValue(r) == n
    decreases n
  {
    if n < 10 then [DigitChar(n)]
    else
      var front := NatToDecimal(n / 10);
      var r := front + [DigitChar(n % 10)];
      assert r[..|r| - 1] == front;
      r
  }

  /** The decimal text of an integer price, as `String(price)` gives it: a
      minus sign exactly for negative prices, then the digits of its magnitude. */
  function NumberToString(n: int): (r: string)
    ensures |r| >= 1 && (r[0] == '-' <==> n < 0)
    ensures n < 0 ==> DecimalValue(r[1..]) == -n
    ensures n >= 0 ==> DecimalValue(r) == n
    ensures forall i :: (n < 0 ==> 1 <= i) && 0 <= i < |r| ==> IsDigit(r[i])
    ensures var digits := if n < 0 then r[1..] else r; |digits| >= 1 && (|digits| > 1 ==> digits[0] != '0')
  {
    if n < 0 then
      var digits := NatToDecimal(-n);
      assert ("-" + digits)[1..] == digits;
      "-" + digits
    else NatToDecimal(n)
  }

  /** An offer as rendered: escaped title, escaped price text. */
  function RenderOffer(encode: string -> string): Offer -> OfferItem {
    (o: Offer) => OfferItem(encode(o.title), encode(NumberToString(o.price)))
  }

  /** The format the duration is shown in, chosen by the millisecond difference:
      start from the day tier, fall back to the hour tier below a day, and to
      the minute tier below an hour. */
  function DurationFormat(eventDuration: int): (r: string)
    ensures r == MINUTES_FORMAT <==> eventDuration < MILLISECONDS_AMOUNT_IN_HOUR
    ensures r == HOURS_FORMAT <==>
      MILLISECONDS_AMOUNT_IN_HOUR <= eventDuration < MILLISECONDS_AMOUNT_IN_DAY
    ensures r == DAYS_FORMAT <==> MILLISECONDS_AMOUNT_IN_DAY <= eventDuration
  {
    var durationFormat := DAYS_FORMAT;
    var durationFormat := if eventDuration < MILLISECONDS_AMOUNT_IN_DAY then HOURS_FORMAT else durationFormat;
    var durationFormat := if eventDuration < MILLISECONDS_AMOUNT_IN_HOUR then MINUTES_FORMAT else durationFormat;
    durationFormat
  }

  /** The class list of the favorite button. */
  function FavoriteClassName(isFavorite: bool): (r: string)
    ensures HasClass(r, FAVORITE_CLASS)
    ensures HasClass(r, FAVORITE_ACTIVE_CLASS) <==> isFavorite
    ensures Contains(r, FAVORITE_ACTIVE_CLASS) <==> isFavorite
    ensures !isFavorite ==> r == FAVORITE_CLASS
  {
    var r := if isFavorite then FAVORITE_CLASS + " " + FAVORITE_ACTIVE_CLASS else FAVORITE_CLASS;
    assert OccursAt(r, FAVORITE_CLASS, 0);
    assert isFavorite ==> OccursAt(r, FAVORITE_ACTIVE_CLASS, 20);
    r
  }

  /** The escaped name of the point's destination, or empty when there is none. */
  function DestinationName(point: Point, destinations: seq<Destination>, encode: string -> string): (name: string)
    ensures (forall i :: 0 <= i < |destinations| ==> destinations[i].id != point.destination) ==> name == ""
    ensures forall i ::
      (0 <= i < |destinations| && destinations[i].id == point.destination &&
       (forall j :: 0 <= j < i ==> destinations[j].id != point.destination)) ==>
      name == encode(destinations[i].name)
  {
    match PointDestination(destinations, point.destination)
    case None => ""
    case Some(d) => encode(d.name)
  }

  /** The computed parts of `createPointTemplate`: the escaped type and price,
      the destination name, the duration format of `dateTo - dateFrom`, the
      selected offers and the favorite class list. */
  function CreatePointTemplate(point: Point, offersByType: seq<OfferGroup>, destinations: seq<Destination>,
                               encode: string -> string): (card: PointCard)
    ensures card.typeLabel == encode(point.pointType)
    ensures card.priceLabel == encode(NumberToString(point.basePrice))
    ensures card.destinationName == DestinationName(point, destinations, encode)
    ensures card.durationFormat == MINUTES_FORMAT <==> point.dateTo - point.dateFrom < MILLISECONDS_AMOUNT_IN_HOUR
    ensures card.durationFormat == HOURS_FORMAT <==>
      MILLISECONDS_AMOUNT_IN_HOUR <= point.dateTo - point.dateFrom < MILLISECONDS_AMOUNT_IN_DAY
    ensures card.durationFormat == DAYS_FORMAT <==> MILLISECONDS_AMOUNT_IN_DAY <= point.dateTo - point.dateFrom
    ensures HasClass(card.favoriteClassName, FAVORITE_ACTIVE_CLASS) <==> point.isFavorite
    ensures (forall i :: 0 <= i < |offersByType| ==> offersByType[i].pointType != point.pointType) ==>
      card.offers == []
    ensures forall g :: PointTypeOffer(offersByType, point.pointType) == Some(g) ==> |card.offers| <= |g.offers|
  {
    var selected := SelectedOffers(PointTypeOffer(offersByType, point.pointType), point.offers);
    PointCard(
      encode(point.pointType),
      DestinationName(point, destinations, encode),
      encode(NumberToString(point.basePrice)),
      DurationFormat(point.dateTo - point.dateFrom),
      Map(selected, RenderOffer(encode)),
      FavoriteClassName(point.isFavorite))
  }

  // Properties of the computed fields

  /** The rendered offers are the selected offers of the point type's group,
      one item per offer, each with escaped title and price, never more than
      the group holds. */
  lemma RenderedOffers(point: Point, offersByType: seq<OfferGroup>, destinations: seq<Destination>,
                       encode: string -> string)
    ensures var card := CreatePointTemplate(point, offersByType, destinations, encode);
      var group := PointTypeOffer(offersByType, point.pointType);
      var selected := SelectedOffers(group, point.offers);
      |card.offers| == |selected| &&
      (group.Some? ==> |card.offers| <= |group.value.offers|) &&
      forall i :: 0 <= i < |selected| ==>
        card.offers[i] == OfferItem(encode(selected[i].title), encode(NumberToString(selected[i].price)))
  {
  }

  /** Selected offers follow the group's order: the selection from a group made
      of two parts is the selection from the first part followed by that from
      the second. */
  lemma SelectedOffersFollowGroupOrder(pointType: string, front: seq<Offer>, back: seq<Offer>,
                                       selected: seq<string>)
    ensures SelectedOffers(Some(OfferGroup(pointType, front + back)), selected) ==
      SelectedOffers(Some(OfferGroup(pointType, front)), selected) +
      SelectedOffers(Some(OfferGroup(pointType, back)), selected)
  {
    FilterConcat(front, back, IsSelectedIn(selected));
  }

  /** The order of the point's own offer ids does not matter: two id lists with
      the same members select the same offers in the same order. */
  lemma SelectedOffersIgnorePointOrder(group: Option<OfferGroup>, a: seq<string>, b: seq<string>)
    requires forall id :: id in a <==> id in b
    ensures SelectedOffers(group, a) == SelectedOffers(group, b)
  {
    if group.Some? {
      FilterAgreeing(group.value.offers, IsSelectedIn(a), IsSelectedIn(b));
    }
  }

  /** A longer duration never selects a finer tier. */
  lemma DurationTierMonotone(d1: int, d2: int)
    requires d1 <= d2
    ensures DurationFormat(d1) == DAYS_FORMAT ==> DurationFormat(d2) == DAYS_FORMAT
    ensures DurationFormat(d1) == HOURS_FORMAT ==> DurationFormat(d2) != MINUTES_FORMAT
  {
  }

  /** Outbound intents a card reports to its owner. */
  datatype Intent = RollupButtonClick | FavoriteClick

  /** A card bound once to a point and its reference data. The owner's two
      callbacks are recorded, in call order, in `intents`. */
  class PointView {
    const point: Point
    const offersByType: seq<OfferGroup>
    const destinations: seq<Destination>
    var intents: seq<Intent>

    constructor (point: Point, offersByType: seq<OfferGroup>, destinations: seq<Destination>)
      ensures this.point == point && this.offersByType == offersByType && this.destinations == destinations
      ensures intents == []
    {
      this.point := point;
      this.offersByType := offersByType;
      this.destinations := destinations;
      intents := [];
    }

    /** The card's computed fields, from the bound snapshot. Its favorite
        button always carries the class the click listener is attached by. */
    function Template(encode: string -> string): (card: PointCard)
      ensures HasClass(card.favoriteClassName, FAVORITE_CLASS)
      ensures HasClass(card.favoriteClassName, FAVORITE_ACTIVE_CLASS) <==> point.isFavorite
    {
      CreatePointTemplate(point, offersByType, destinations, encode)
    }

    /** A click on the rollup button calls the rollup callback once. */
    method RollupButtonClickHandler()
      modifies this
      ensures intents == old(intents) + [RollupButtonClick]
    {
      intents := intents + [RollupButtonClick];
    }

    /** A click on the favorite button calls the favorite callback once. */
    method FavoriteClickHandler()
      modifies this
      ensures intents == old(intents) + [FavoriteClick]
    {
      intents := intents + [FavoriteClick];
    }
  }
}

=== FILE: trip_model.dfy ===
/** The data the two components read: points and the reference data they are
    rendered against. Ids are strings and timestamps are integer milliseconds. */
module TripModel {

  /** A value that may be absent, as a JavaScript `find` result may be `undefined`. */
  datatype Option<+T> = None | Some(value: T)

  /** An add-on offer of one point type. */
  datatype Offer = Offer(id: string, title: string, price: int)

  /** All offers available for one point type, in their defined order. */
  datatype OfferGroup = OfferGroup(pointType: string, offers: seq<Offer>)

  /** A destination as the reference data describes it (the fields the view reads). */
  datatype Destination = Destination(id: string, name: string)

  /** One travel event. `offers` holds the ids of the offers selected for it. */
  datatype Point = Point(
    id: string,
    basePrice: int,
    dateFrom: int,
    dateTo: int,
    destination: string,
    isFavorite: bool,
    offers: seq<string>,
    pointType: string)

  /** The read-only reference data of the points model (its `offers` and `destinations`). */
  datatype PointsModel = PointsModel(offers: seq<OfferGroup>, destinations: seq<Destination>)
}
